=== FILE: README.md ===
# Interview bot: a verified model of its conversation engine

`bot.py` is a Telegram bot that runs the first stage of a sales-job
interview. `/interview` starts the questionnaire. The bot asks sixteen fixed
questions one at a time and stores each stripped answer under the question's
key. The phone answer must look like `380XXXXXXXXX`, and one that does not
is asked again. Once every question is answered, the candidate gets an
HTML review of all answers with three buttons:

- "add note" asks for a manager's note. A lone `-` means no note.
- "send" posts an HTML questionnaire to the HR group chat, then thanks the
  candidate and forgets the session. If any step fails, it reports the error
  and keeps the review open.
- "cancel" forgets the session.

`/cancel` is meant to do the same at any point. As the handlers are
registered, it clears the data but leaves the conversation where it was
(see "## Findings").

The project has one module per concern:

| file | module | what it holds |
|---|---|---|
| `text.dfy` | `Text` | Python's `str.strip()` and `sep.join`, plus occurrence counting over strings |
| `phone.dfy` | `Phone` | `is_valid_phone`: the regular expression `^380\d{9}$` applied with `re.match` to the stripped text |
| `html.dfy` | `Html` | `html.escape` (with `quote=True`) and its inverse |
| `catalog.dfy` | `Catalog` | the questionnaire `QUESTIONS_TEXT` |
| `decimal.dfy` | `Decimal` | `str(n)` for the numeric Telegram id |
| `formatter.dfy` | `Formatter` | the two documents, described below |
| `conversation.dfy` | `Conversation` | the handlers as pure transitions, described below |
| `session.dfy` | `Handlers` | the handlers as a session class updated in place, with `/cancel` routed to the conversation's fallback, described below |

The two documents are the review (`build_review_text_html`) and the group
post (`build_group_text_html`). Each is a specification function plus a
method with the source's loop, proved equal to it.

In `Conversation`, each handler is a pure transition from one user's
session (`answers`, `note`, `q_idx` and the conversation state) to the next
session and the list of messages the bot sends. The module also defines the
session invariant and proves that every handler keeps it.

In `Handlers`, the session is a class whose fields the handlers overwrite,
as `context.user_data` is overwritten in place. Each method is proved to
make exactly the transition of the same name and to keep the invariant.

Everything outside the session is passed in as a `SendEnv`:

- the configured group chat id;
- how each of the three Telegram calls of "send" ends;
- the user pressing the button;
- the time of sending.

Two behaviours of the code are worth knowing:

- Any stripped text is accepted as the answer to a question other than the
  phone, the empty string included.
- When removing the buttons fails after the group post went out, the
  session is kept and the buttons stay, so pressing "send" again posts a
  second copy
  (`Conversation.RetryAfterLateFailurePostsTwice`).

## Model

| member | source | states |
|---|---|---|
| Text.Strip | bot.py:137 | the stripped text has no whitespace at either end, is empty exactly when the input is all whitespace, and equals an input that is already stripped |
| Text.StripIdempotent | bot.py:79 | stripping an answer that was stored stripped changes nothing |
| Text.StripIsSlice | bot.py:137 | what `strip` keeps is a contiguous piece of the input, and everything cut off before and after it is whitespace |
| Text.StripDropsTrailingSpace | bot.py:62 | a whitespace character after a stripped text is removed again |
| Text.JoinCount | bot.py:82 | the newline-joined review holds exactly the `<` of its lines |
| Text.ConcatCount | bot.py:92 | text grown with `+=` holds exactly the `<` of its pieces |
| Phone.MatchesDigitsExactly | bot.py:62 | `\d{n}$` accepts n ASCII digits, optionally followed by a single newline, and nothing else |
| Phone.IsValidPhone | bot.py:61-62 | `re.match(r"^380\d{9}$", phone.strip())`, with `\d` read as the ASCII digits 0-9 and `$` as the end of the text or a final newline |
| Phone.ValidPhoneCharacterisation | bot.py:61-62 | a phone number is valid exactly when its stripped form has length 12, starts with "380" and has ASCII digits in the other nine positions |
| Phone.AcceptedPhones | bot.py:61-62 | "380" followed by any nine digits is accepted, with or without a trailing space |
| Phone.RejectedPlusPrefix | bot.py:61-62 | the same number written with a leading "+" is refused |
| Phone.RejectedWrongLength | bot.py:61-62 | a number one digit short, and a local number without the country code, are refused |
| Html.EscapeChar | bot.py:80 | each of `&`, `<`, `>`, `"`, `'` becomes a character reference; every other character is kept |
| Html.Escape | bot.py:80 | escaped text contains no `<`, `>`, `"` or `'` |
| Html.UnescapeEscape | bot.py:80 | escaping loses nothing: reading the references back gives the original text |
| Html.EscapeIdentity | bot.py:90 | text with no special character is left unchanged by escaping |
| Html.EscapeAppend | bot.py:92 | escaping a concatenation escapes each part |
| Catalog.KeysDistinct | bot.py:31-54 | the questionnaire has sixteen keys and no key appears twice |
| Catalog.Questions | bot.py:31-54 | the sixteen (key, prompt) pairs of `QUESTIONS_TEXT`, in order |
| Catalog.QuestionsWellFormed | bot.py:31-54 | the questionnaire is non-empty and has no repeated key |
| Catalog.PhoneAskedSecond | bot.py:33 | the phone is asked second, and no other question uses the "phone" key |
| Catalog.KeysBelowStep | bot.py:146-148 | answering question n adds exactly its key to the answered keys; no later question shares that key, and no key from position n on is answered yet |
| Decimal.NatToString | bot.py:99 | `str(n)` is a non-empty run of decimal digits, with no leading zero unless n is zero |
| Decimal.IntToString | bot.py:99 | the written id contains no `<` and no `&`, so it needs no escaping |
| Decimal.IntToStringRoundTrip | bot.py:99 | the sign and the digits of the written id give back the id |
| Formatter.ReviewAnswer | bot.py:79 | a missing or blank answer shows as an em-dash; any other answer shows stripped and non-empty |
| Formatter.ReviewText | bot.py:76-82 | the review document: the heading, one block per question, then the note line, joined with newlines |
| Formatter.BuildReviewTextHtml | bot.py:76-82 | the lines collected by the loop, joined with newlines, are the review document |
| Formatter.ReviewBlocksAt | bot.py:78-80 | the loop's block i is question i's block, for every i, in catalogue order |
| Formatter.ReviewListsEveryQuestion | bot.py:76-82 | the review has two lines more than there are questions: the heading, then each question in catalogue order as an escaped bold prompt over its escaped answer, then the note line |
| Formatter.NoteLineShows | bot.py:81 | a blank note shows as an em-dash; any other note shows stripped and escaped |
| Formatter.ReviewLinesTags | bot.py:77-81 | each line of the review holds exactly two `<`, whatever the answers and the note contain |
| Formatter.ReviewMarkupIsFixed | bot.py:76-82 | the review holds two `<` per question plus four, so no answer or note can add or remove markup |
| Formatter.GroupAnswer | bot.py:91 | a missing or empty answer shows as an em-dash; any other answer shows stripped |
| Formatter.GroupText | bot.py:85-100 | the group document: the timestamp heading, one block per question, the note when it is not blank, the username when there is one, and the id |
| Formatter.EmDashIsStripped | bot.py:91 | stripping the em-dash placeholder leaves it unchanged |
| Formatter.BuildGroupTextHtml | bot.py:85-100 | the text accumulated by the loop, then the note, the username and the id, is the group document |
| Formatter.GroupStep | bot.py:89-92 | one turn of the loop appends exactly the block of the current question |
| Formatter.GroupBlocksAt | bot.py:89-92 | the group document's block i is question i's block, for every i, in catalogue order |
| Formatter.GroupListsEveryQuestion | bot.py:85-100 | the group document is the timestamp heading, then each question in catalogue order with its escaped answer, then the note when present, the username when present, and the id |
| Formatter.GroupMarkupIsFixed | bot.py:85-100 | the group document holds two `<` per question plus two, and two more when the note is not blank, whatever the answers, the note, the username and the timestamp contain |
| Formatter.StrippedAnswersShowAlike | bot.py:91 | for answers stored stripped, the group document shows the same text for a question as the review |
| Formatter.SpacesOnlyAnswerShownDifferently | bot.py:91 | an answer of spaces only shows as an em-dash in the review and as an empty line in the group document |
| Conversation.InterviewStep | bot.py:123-131 | `interview`: the session is replaced by an empty one with a question open, and the first prompt is sent |
| Conversation.OnTextStep | bot.py:134-157 | `on_text`: the text is stripped; a phone answer that fails the check is refused with the format error; otherwise the answer is stored, the cursor moves on, and the next prompt or the review with its buttons is sent |
| Conversation.NoteFrom | bot.py:161-163 | the note as stored: the stripped text, or nothing for a lone "-" |
| Conversation.OnNoteTextStep | bot.py:160-168 | `on_note_text`: the note is stored and the review is sent again with its buttons |
| Conversation.SendStep | bot.py:189-220 | the "send" branch: each stage, in order, either goes through or ends in the error reply with the session kept in the review; when all succeed, the session is cleared and the candidate thanked |
| Conversation.ReviewCallbackStep | bot.py:171-222 | `on_review_callback`: the press is acknowledged, then "cancel" clears the session with the cancellation text, "add note" opens the note prompt, "send" runs `SendStep`, and anything else keeps the review |
| Conversation.CancelStep | bot.py:117-120 | `cancel` run by the conversation's fallback (bot.py:250): the session is cleared, the conversation ends and the cancellation text is sent |
| Conversation.CommandCancelAsWiredStep | bot.py:117-120 | `cancel` run by the top-level command handler, which bot.py:256-257 places ahead of the conversation: the data is cleared and the cancellation text sent, but the conversation stays in its state |
| Conversation.ClearedInv | bot.py:118 | the cleared session satisfies the invariant |
| Conversation.InterviewResets | bot.py:123-131 | `/interview` gives the same result whatever the session held: no answers, no note, cursor 0, a question open, and the first prompt sent |
| Conversation.BadPhoneChangesNothing | bot.py:139-144 | a phone answer that fails the check leaves the session unchanged and sends the format error |
| Conversation.AcceptedAnswerAdvances | bot.py:146-157 | an accepted answer is stored stripped under the current key and the cursor moves on by one; every other answer and the note are unchanged; the review opens exactly when the cursor reaches the end, and otherwise the next prompt is sent |
| Conversation.NoteStored | bot.py:160-168 | the note is stored stripped, a lone "-" is stored as no note, the answers are untouched, and the review is sent again with the new note |
| Conversation.CancelClears | bot.py:117-120 | cancelling by the button, or by `/cancel` when the conversation's fallback (bot.py:250) handles it, empties the session and ends the conversation |
| Conversation.SendOutcome | bot.py:189-220 | "send" succeeds exactly when the group id is set and all three Telegram calls go through, and then the session is cleared. Otherwise answers, note and cursor are kept, the review stays open, and the last message is an error reply; `SendReportsStage` gives its exact text |
| Conversation.SendReportsStage | bot.py:189-220 | the exact messages of each outcome of "send": an unset group id is reported as "Не задано GROUP_CHAT_ID"; a bad id or a failed call is reported with its own error, after the post and the button removal that had already happened; success sends the post, removes the buttons and thanks the candidate |
| Conversation.AddNoteOpensPrompt | bot.py:182-187 | "add note" keeps the answers, the note and the cursor, acknowledges the press and replaces the review with the note prompt |
| Conversation.SendPostsOnce | bot.py:197-204 | the group gets exactly one post, built from the session's answers and note, when the id is set and the delivery succeeds, and no post otherwise |
| Conversation.RetryAfterLateFailurePostsTwice | bot.py:206-220 | if sending fails after the post went out, pressing "send" again posts the same questionnaire a second time |
| Conversation.CancelAsWiredLeavesReviewOpen | bot.py:256-257 | with the handlers registered as written, `/cancel` on the review empties the data but keeps the review open, which breaks the invariant, and "send" then posts a questionnaire with no answers |
| Conversation.CancelEndsConversation | bot.py:250 | `/cancel` handled by the conversation's fallback empties the session, ends the conversation and keeps the invariant |
| Conversation.AcceptKeepsInv | bot.py:146-148 | storing a stripped and valid answer and advancing the cursor keeps the invariant |
| Conversation.OnTextKeepsInv | bot.py:134-157 | every text message on an open question keeps the invariant |
| Conversation.OnNoteTextKeepsInv | bot.py:160-168 | every note message keeps the invariant |
| Conversation.ReviewCallbackKeepsInv | bot.py:171-222 | every button press on the review keeps the invariant, whatever the environment |
| Conversation.AnswersFromKeys | bot.py:146 | after n answers, the answered keys are exactly those of the first n questions |
| Conversation.AnswersFromLookup | bot.py:146 | after n answers, question i's key holds the i-th text, stripped |
| Conversation.FeedOne | bot.py:134-157 | one text on question n stores it and moves to question n+1, or to the review after the last question |
| Conversation.FeedFrom | bot.py:134-157 | answering the remaining questions from n onwards ends in the review holding every answer and no note |
| Conversation.InterviewCollectsAnswers | bot.py:123-157 | `/interview` followed by one text per question, with a valid phone, ends in the review with exactly the stripped answers under their keys |
| Handlers.Session.constructor | bot.py:118 | a new session is cleared and satisfies the invariant |
| Handlers.Session.Interview | bot.py:123-131 | performs `InterviewStep` on the fields and keeps the invariant |
| Handlers.Session.OnText | bot.py:134-157 | performs `OnTextStep` on the fields and keeps the invariant |
| Handlers.Session.OnNoteText | bot.py:160-168 | performs `OnNoteTextStep` on the fields and keeps the invariant |
| Handlers.Session.OnReviewCallback | bot.py:171-222 | performs `ReviewCallbackStep` on the fields and keeps the invariant |
| Handlers.Session.SendToGroup | bot.py:189-220 | performs `SendStep` on the fields and keeps the invariant |
| Handlers.Session.Cancel | bot.py:117-120 | performs `CancelStep` on the fields, which ends the conversation, and keeps the invariant (the fallback path, which the wiring at bot.py:256-257 pre-empts) |

## Left out

- The Telegram transport is not modelled. This covers `reply_text`, `edit_message_text`, `send_message`, `edit_message_reply_markup`, `query.answer` and `run_polling`. Each call is an `Output` value the handler emits. The outcome of each call during "send" is a parameter.
- The review keyboard (`review_keyboard`) is not modelled. It is a flag on the reply that carries it. The link-preview option is dropped.
- Conversation routing is not modelled. Each handler's `requires` gives the state in which the conversation handler calls it, and `Conversation.AfterTexts` feeds texts to the open question only. `allow_reentry` appears as `/interview` being accepted in every state.
- The callback-data pattern `^review:(add_note|send|cancel)$` is not modelled: a press with any other data is still answered and keeps the review. The bot's own buttons carry only the three accepted values.
- `main`'s startup checks are not modelled. The token check and the `int(GROUP_CHAT_ID)` check only stop the process. The check at send time is modelled as a `GroupTarget`: unset, not an integer (with the error text), or a chat id.
- `datetime.now` is not modelled. The formatted UTC time of sending is a parameter.
- Logging, `start` and `chatid` are not modelled. They only reply with fixed text.
- An exception inside the `except` branch's own reply, or inside `query.answer()`, is not modelled.
- A message without text (`update.message.text` is `None`) is not modelled. The text filter keeps such messages away from the handlers.
- Phone.IsValidPhone: `\d` matches only the ASCII digits 0-9. Python's `re` on a `str` pattern also accepts other Unicode decimal digits, so the model refuses some numbers the source accepts.
- Formatter.User: a missing username (`None`) and an empty one are both the empty string. The source treats both as absent.
- Conversation.CommandCancelAsWiredStep does not model the `KeyError` that follows when the data is gone but the conversation is not. This happens after a cancel while a question or the note prompt is open: the next text finds no `answers` entry and the handler fails. It also happens after a cancel on the review followed by "add note" and a note text, since the handler then reads the missing `answers` entry (bot.py:166). On the note-prompt paths the model instead shows a review with no answers. With a question open, the source fails at bot.py:146, while the model takes the next text as the answer to the first question and asks the second.
- Telegram calls outside "send" are assumed to succeed. In `on_text` the answer and `q_idx` are stored (bot.py:146-148) before the reply (bot.py:152, 156). If the reply after the last answer fails, the conversation stays on a question with `q_idx` at 16, and the next text fails at bot.py:136 with an index error. The model does not show this.
- The data of one user is shared across chats, while the conversation state is kept per chat and user. A user interviewing in two chats therefore shares `answers` and `q_idx` between the two conversations. The model pairs one session's data with one conversation state.
- Concurrency between users is not modelled. Each user's session is independent, and one session handles one update at a time.

## Findings

| source | as written | input that shows it | evidently intended | confidence | as-written member | corrected member |
|---|---|---|---|---|---|---|
| bot.py:250-257 | `CommandHandler("cancel", cancel)` is added at 256, before the conversation at 257 and in the same handler group. The first handler of a group that matches an update takes it, so the conversation's own fallback at 250 never sees `/cancel`. The cancel clears `user_data` but the conversation stays in its state. | Answer all questions to reach the review, send `/cancel`, then press "send". The group receives a questionnaire in which every answer is an em-dash. | `/cancel` ends the conversation in every state and clears the session, as the fallback at 250 does | medium, not executed; relies on the chat library's rule that the first matching handler of a group handles the update | Conversation.CancelAsWiredLeavesReviewOpen | Conversation.CancelEndsConversation |

=== FILE: catalog.dfy ===
/** The fixed interview questionnaire: sixteen (key, prompt) pairs asked in
    this order (QUESTIONS_TEXT). */
module Catalog {

  datatype Question = Question(key: string, prompt: string)

  /** The questionnaire's keys, in the order the questions are asked. */
  const QuestionKeys: seq<string> := [
    "candidate", "phone", "city", "age", "education", "equipment",
    "sales_experience", "auto_business", "crm", "salary_from", "why_software",
    "case1", "case2", "case3", "needs_qs", "why_you"
  ]

  /** The prompt shown for each key, position by position. */
  const QuestionPrompts: seq<string> := [
    "1) Вкажіть, будь ласка, повне ПІБ:",
    "2) Вкажіть Ваш контактний телефон у форматі: 380XXXXXXXXX",
    "3) Місто проживання:",
    "4) Скільки Вам повних років:",
    "5) Який навчальний заклад Ви закінчували? Яка спеціальність?",
    "6) Для роботи потрібен ноутбук, телефон і безперебійний інтернет. Як у Вас з цим? Скільки тримає батарея ноутбука?",
    "7) Коротко: який у Вас досвід у продажах і що продавали?",
    "8) Чи працювали Ви в автобізнесі? (Так/Ні). Якщо так, що саме входило в обовʼязки?",
    "9) З якими CRM системами працювали?",
    "10) Очікувана з/п від:",
    "11) Чому хочете продавати програмне забезпечення?",
    "12) Кейс: клієнт каже “В нас уже є програма”. Що відповісте?",
    "13) Кейс: “Дорого”. Як аргументуєте цінність?",
    "14) Кейс: клієнт не відповідає 5 днів. Ваші дії?",
    "15) Які 2–3 питання ви поставите власнику СТО, щоб виявити потреби?",
    "16) Чому ми маємо обрати саме вас?"
  ]

  /** QUESTIONS_TEXT: the (key, prompt) pairs, in order. */
  function Questions(): seq<Question> {
    seq(|QuestionKeys|, i requires 0 <= i < |QuestionKeys| => Question(QuestionKeys[i], QuestionPrompts[i]))
  }

  /** The one key whose answer is validated. */
  const PhoneKey: string := "phone"

  /** What the interview needs of a questionnaire: at least one question
      (the first is asked straight away) and no key used twice. */
  predicate WellFormed(qs: seq<Question>) {
    && |qs| > 0
    && forall i, j | 0 <= i < j < |qs| :: qs[i].key != qs[j].key
  }

  /** Keys of the questions before position n. */
  function KeysBelow(qs: seq<Question>, n: nat): set<string>
    requires n <= |qs|
  {
    set i | 0 <= i < n :: qs[i].key
  }

  /** No key is listed twice. */
  lemma KeysDistinct()
    ensures |QuestionKeys| == 16
    ensures forall i, j | 0 <= i < j < |QuestionKeys| :: QuestionKeys[i] != QuestionKeys[j]
  {
  }

  /** The bot's questionnaire is well formed and has sixteen questions. */
  lemma QuestionsWellFormed()
    ensures WellFormed(Questions()) && |Questions()| == 16
  {
    KeysDistinct();
  }

  /** The bot asks for the phone number second, and only there. */
  lemma PhoneAskedSecond()
    ensures |Questions()| > 1 && Questions()[1].key == PhoneKey
    ensures forall i | 0 <= i < |Questions()| && i != 1 :: Questions()[i].key != PhoneKey
  {
  }

  /** The answered keys grow by exactly the current question's key, which
      no later question shares; no key still to be asked is answered yet. */
  lemma KeysBelowStep(qs: seq<Question>, n: nat)
    requires WellFormed(qs) && n < |qs|
    ensures KeysBelow(qs, n + 1) == KeysBelow(qs, n) + {qs[n].key}
    ensures forall j | n < j < |qs| :: qs[j].key != qs[n].key
    ensures forall j | n <= j < |qs| :: qs[j].key !in KeysBelow(qs, n)
  {
    assert qs[n].key in KeysBelow(qs, n + 1);
  }
}

=== FILE: conversation.dfy ===
/** The interview conversation as a state machine over one user's session
    data: the answers collected so far, the manager's note, the cursor into
    the questionnaire and the conversation state. Each handler is a pure
    transition from the session before a Telegram update to the session
    after it, together with the messages the bot sends on the way. */
module Conversation {
  import opened Text
  import opened Phone
  import opened Catalog
  import opened Formatter

  /** S_TEXT_Q, S_REVIEW, S_ADD_NOTE, and END (outside the conversation). */
  datatype Phase = TextQuestion | Review | AddNote | End

  /** One user's `user_data` plus the state the conversation is in. */
  datatype State = State(answers: map<string, string>, note: string, qIdx: nat, phase: Phase)

  /** What the bot does towards Telegram. */
  datatype Output =
    | Reply(text: string, html: bool, keyboard: bool)  // a new message in the chat; `keyboard`: the review buttons
    | Edit(text: string, html: bool)                   // rewrites the message that carried the buttons
    | RemoveKeyboard                                   // strips the buttons from that message
    | AnswerCallback                                   // acknowledges a button press
    | GroupPost(chatId: int, text: string)             // the questionnaire posted to the HR group, as HTML

  /** The configured HR group: unset (or empty), not an integer, or a chat id. */
  datatype GroupTarget = NoChatId | BadChatId(error: string) | ChatId(id: int)

  /** How one call to Telegram ends. */
  datatype Outcome = Done | Failed(error: string)

  /** Everything the "send" button depends on outside the session: the
      configuration, the fate of the three Telegram calls it makes, the
      person pressing the button and the time of sending. */
  datatype SendEnv = SendEnv(
    target: GroupTarget,
    delivery: Outcome,
    markupRemoval: Outcome,
    confirmation: Outcome,
    user: User,
    timestamp: string)

  /** A transition: the session afterwards and what was sent, in order. */
  datatype Step = Step(next: State, outs: seq<Output>)

  const PhoneFormatError: string :=
    "❌ Невірний формат телефону.\nВведіть у форматі: 380XXXXXXXXX (12 цифр, без пробілів)"
  const Cancelled: string := "Скасовано. /interview — щоб почати знову."
  const NotePrompt: string :=
    "Напишіть примітку (коментар менеджера). Якщо не потрібно — напишіть просто <code>-</code>."
  const Thanks: string :=
    "✅ Дякуємо! Анкета відправлена. Наш HR відділ опрацює відповіді і звʼяжеться з Вами. Гарного дня!\n\n"
    + "Для додаткової інформації про Carbook:\nhttps://carbook.mobi/"
  const SendErrorPrefix: string := "❌ Помилка відправки в групу:\n"
  const MissingChatId: string := "Не задано GROUP_CHAT_ID"

  const ActionAddNote: string := "review:add_note"
  const ActionSend: string := "review:send"
  const ActionCancel: string := "review:cancel"

  const NoDash: string := "-"

  /** `user_data.clear()` followed by leaving the conversation. */
  const Cleared: State := State(map[], "", 0, End)

  /** The keys of the first n questions, each with the stripped text that
      was given for it. */
  function AnswersFrom(qs: seq<Question>, texts: seq<string>, n: nat): map<string, string>
    requires n <= |qs| && n <= |texts|
  {
    if n == 0 then map[] else AnswersFrom(qs, texts, n - 1)[qs[n - 1].key := Strip(texts[n - 1])]
  }

  // ---------------------------------------------------------------------
  // Transitions
  // ---------------------------------------------------------------------

  /** `/interview`: forgets the session and asks the first question. */
  function InterviewStep(qs: seq<Question>, s: State): Step
    requires |qs| > 0
  {
    Step(State(map[], "", 0, TextQuestion), [Reply(qs[0].prompt, false, false)])
  }

  /** The session after `text`, already stripped, is accepted as the
      answer to the open question: stored under its key, the cursor moved on,
      and the review opened once the cursor reaches the end. */
  function Accept(qs: seq<Question>, s: State, t: string): State
    requires s.qIdx < |qs|
  {
    var next := s.qIdx + 1;
    s.(answers := s.answers[qs[s.qIdx].key := t], qIdx := next,
       phase := if next < |qs| then TextQuestion else Review)
  }

  /** What the bot says once the cursor has moved: the next question, or
      the review with its buttons when none is left. */
  function NextPrompt(qs: seq<Question>, r: State): seq<Output>
    requires r.qIdx <= |qs|
  {
    if r.qIdx < |qs| then [Reply(qs[r.qIdx].prompt, false, false)]
    else [Reply(ReviewText(qs, r.answers, r.note), true, true)]
  }

  /** A text message while a question is open. */
  function OnTextStep(qs: seq<Question>, s: State, text: string): Step
    requires s.qIdx < |qs|
  {
    var t := Strip(text);
    if qs[s.qIdx].key == PhoneKey && !IsValidPhone(t) then
      Step(s.(phase := TextQuestion), [Reply(PhoneFormatError, false, false)])
    else
      var r := Accept(qs, s, t);
      Step(r, NextPrompt(qs, r))
  }

  /** The note typed after pressing "add note"; a lone "-" means no note. */
  function NoteFrom(text: string): string {
    var n := Strip(text);
    if n == NoDash then "" else n
  }

  /** A text message while the note is awaited. */
  function OnNoteTextStep(qs: seq<Question>, s: State, text: string): Step {
    var note := NoteFrom(text);
    Step(s.(note := note, phase := Review), [Reply(ReviewText(qs, s.answers, note), true, true)])
  }

  /** The reply to a failed send, after which the review stays open. */
  function SendFailure(s: State, posted: seq<Output>, error: string): Step {
    Step(s.(phase := Review), posted + [Reply(SendErrorPrefix + error, false, false)])
  }

  /** The "send" button: each stage that fails ends in the error reply and
      keeps the session; only when all of them succeed is it cleared. */
  function SendStep(qs: seq<Question>, s: State, env: SendEnv): Step {
    match env.target
    case NoChatId => SendFailure(s, [], MissingChatId)
    case BadChatId(error) => SendFailure(s, [], error)
    case ChatId(id) =>
      var post := GroupPost(id, GroupText(qs, s.answers, s.note, env.user, env.timestamp));
      match env.delivery
      case Failed(error) => SendFailure(s, [], error)
      case Done =>
        match env.markupRemoval
        case Failed(error) => SendFailure(s, [post], error)
        case Done =>
          match env.confirmation
          case Failed(error) => SendFailure(s, [post, RemoveKeyboard], error)
          case Done => Step(Cleared, [post, RemoveKeyboard, Reply(Thanks, false, false)])
  }

  /** A press on one of the review buttons. */
  function ReviewCallbackStep(qs: seq<Question>, s: State, action: string, env: SendEnv): Step {
    var r :=
      if action == ActionCancel then Step(Cleared, [Edit(Cancelled, false)])
      else if action == ActionAddNote then Step(s.(phase := AddNote), [Edit(NotePrompt, true)])
      else if action == ActionSend then SendStep(qs, s, env)
      else Step(s.(phase := Review), []);
    Step(r.next, [AnswerCallback] + r.outs)
  }

  /** `/cancel` handled by the conversation's fallback, as intended: the
      session is cleared and the conversation ends, whatever its state. As
      wired, the bot runs `CommandCancelAsWiredStep` instead. */
  function CancelStep(s: State): Step {
    Step(Cleared, [Reply(Cancelled, false, false)])
  }

  /** `/cancel` as the bot is wired: the top-level command handler is
      registered ahead of the conversation, so it takes the command first.
      It clears the user's data, but the conversation itself is not told
      and stays in the state it was in. */
  function CommandCancelAsWiredStep(s: State): Step {
    Step(s.(answers := map[], note := "", qIdx := 0), [Reply(Cancelled, false, false)])
  }

  /** Text messages fed one by one to the open questions; a message that
      arrives when no question is open is not routed to the handler. */
  function AfterTexts(qs: seq<Question>, s: State, texts: seq<string>): State
    decreases |texts|
  {
    if texts == [] || s.phase != TextQuestion || s.qIdx >= |qs| then s
    else AfterTexts(qs, OnTextStep(qs, s, texts[0]).next, texts[1..])
  }

  // ---------------------------------------------------------------------
  // The session invariant
  // ---------------------------------------------------------------------

  /** What holds of every session the handlers produce:
      - the cursor never passes the end, and stands at the end exactly when
        the review or the note prompt is showing;
      - the answered keys are exactly those of the questions before the cursor;
      - answers and note are stored stripped, and the note is never "-";
      - a stored phone number passed the check;
      - no note exists before the review; the ended session is empty. */
  ghost predicate Inv(qs: seq<Question>, s: State) {
    && s.qIdx <= |qs|
    && (s.phase == TextQuestion ==> s.qIdx < |qs| && s.note == "")
    && (s.phase == Review || s.phase == AddNote ==> s.qIdx == |qs|)
    && s.answers.Keys == KeysBelow(qs, s.qIdx)
    && (forall k | k in s.answers :: IsStripped(s.answers[k]))
    && (PhoneKey in s.answers ==> IsValidPhone(s.answers[PhoneKey]))
    && IsStripped(s.note) && s.note != NoDash
    && (s.phase == End ==> s == Cleared)
  }

  lemma ClearedInv(qs: seq<Question>)
    requires WellFormed(qs)
    ensures Inv(qs, Cleared)
  {
    assert KeysBelow(qs, 0) == {};
  }

  /** `/interview` resets the session whatever it held, asks the first
      question, and the result satisfies the invariant. */
  lemma InterviewResets(qs: seq<Question>, s: State, t: State)
    requires WellFormed(qs)
    ensures InterviewStep(qs, s) == InterviewStep(qs, t)
    ensures var r := InterviewStep(qs, s);
      && r.next.answers == map[] && r.next.note == "" && r.next.qIdx == 0
      && r.next.phase == TextQuestion
      && r.outs == [Reply(qs[0].prompt, false, false)]
      && Inv(qs, r.next)
  {
    assert KeysBelow(qs, 0) == {};
  }

  /** A phone number that fails the check changes nothing and asks again. */
  lemma BadPhoneChangesNothing(qs: seq<Question>, s: State, text: string)
    requires Inv(qs, s) && s.phase == TextQuestion
    requires qs[s.qIdx].key == PhoneKey && !IsValidPhone(Strip(text))
    ensures OnTextStep(qs, s, text) == Step(s, [Reply(PhoneFormatError, false, false)])
  {
  }

  /** An accepted message stores its stripped text under the current key,
      moves the cursor on by one and leaves every other answer and the note
      as they were. The review opens exactly when the cursor reaches the end
      of the questionnaire; before that the next question is asked. */
  lemma AcceptedAnswerAdvances(qs: seq<Question>, s: State, text: string)
    requires Inv(qs, s) && s.phase == TextQuestion
    requires qs[s.qIdx].key != PhoneKey || IsValidPhone(Strip(text))
    ensures var r := OnTextStep(qs, s, text);
      var key := qs[s.qIdx].key;
      && r.next.qIdx == s.qIdx + 1
      && key in r.next.answers && r.next.answers[key] == Strip(text)
      && (forall k | k != key :: (k in r.next.answers <==> k in s.answers))
      && (forall k | k != key && k in s.answers :: r.next.answers[k] == s.answers[k])
      && r.next.note == s.note
      && (r.next.phase == Review <==> s.qIdx + 1 == |qs|)
      && (r.next.phase != Review ==>
            r.next.phase == TextQuestion && r.outs == [Reply(qs[s.qIdx + 1].prompt, false, false)])
      && (r.next.phase == Review ==> r.outs == [Reply(ReviewText(qs, r.next.answers, ""), true, true)])
  {
    StripIdempotent(text);
  }

  /** The note is stored stripped, a lone "-" as no note at all; the answers
      are untouched and the review is shown again with the new note. */
  lemma NoteStored(qs: seq<Question>, s: State, text: string)
    ensures var r := OnNoteTextStep(qs, s, text);
      && (Strip(text) == NoDash ==> r.next.note == "")
      && (Strip(text) != NoDash ==> r.next.note == Strip(text))
      && r.next.answers == s.answers && r.next.qIdx == s.qIdx
      && r.next.phase == Review
      && r.outs == [Reply(ReviewText(qs, s.answers, r.next.note), true, true)]
  {
  }

  /** Cancelling by the button, or by `/cancel` when the conversation's
      fallback handles it, empties the session and ends the conversation. */
  lemma CancelClears(qs: seq<Question>, s: State, env: SendEnv)
    ensures CancelStep(s).next == Cleared
    ensures ReviewCallbackStep(qs, s, ActionCancel, env).next == Cleared
    ensures Cleared.answers == map[] && Cleared.note == "" && Cleared.phase == End
  {
  }

  /** Sending succeeds exactly when the group is configured and all three
      Telegram calls go through; then the session is cleared and the
      candidate thanked. Otherwise the answers, the note and the cursor are
      kept, the review stays open, and the last message reports the error of
      the first stage that failed, after whatever had already been done. */
  lemma SendOutcome(qs: seq<Question>, s: State, env: SendEnv)
    ensures var r := SendStep(qs, s, env);
      var success := env.target.ChatId? && env.delivery == Done
        && env.markupRemoval == Done && env.confirmation == Done;
      && (success ==> r.next == Cleared && r.outs[|r.outs| - 1] == Reply(Thanks, false, false))
      && (!success ==>
            && r.next == s.(phase := Review) && |r.outs| > 0
            && r.outs[|r.outs| - 1].Reply?
            && r.outs[|r.outs| - 1].text[..|SendErrorPrefix|] == SendErrorPrefix)
  {
    var r := SendStep(qs, s, env);
    var success := env.target.ChatId? && env.delivery == Done
      && env.markupRemoval == Done && env.confirmation == Done;
    if !success {
      var e := r.outs[|r.outs| - 1].text;
      assert e[..|SendErrorPrefix|] == SendErrorPrefix;
    }
  }

  /** The message of each outcome of "send": the unset group id is
      reported as such, an id that is not a number or a failed call with its
      own error, and the post and the removal of the buttons that already
      happened stay in the transcript before the error. */
  lemma SendReportsStage(qs: seq<Question>, s: State, env: SendEnv)
    ensures var r := SendStep(qs, s, env);
      && (env.target.NoChatId? ==> r.outs == [Reply(SendErrorPrefix + MissingChatId, false, false)])
      && (env.target.BadChatId? ==> r.outs == [Reply(SendErrorPrefix + env.target.error, false, false)])
    ensures env.target.ChatId? ==>
      var r := SendStep(qs, s, env);
      var post := GroupPost(env.target.id, GroupText(qs, s.answers, s.note, env.user, env.timestamp));
      && (env.delivery.Failed? ==>
            r.outs == [Reply(SendErrorPrefix + env.delivery.error, false, false)])
      && (env.delivery == Done && env.markupRemoval.Failed? ==>
            r.outs == [post, Reply(SendErrorPrefix + env.markupRemoval.error, false, false)])
      && (env.delivery == Done && env.markupRemoval == Done && env.confirmation.Failed? ==>
            r.outs == [post, RemoveKeyboard, Reply(SendErrorPrefix + env.confirmation.error, false, false)])
      && (env.delivery == Done && env.markupRemoval == Done && env.confirmation == Done ==>
            r.outs == [post, RemoveKeyboard, Reply(Thanks, false, false)])
  {
  }

  /** "add note" keeps the answers, the note and the cursor, and replaces
      the review with the note prompt. */
  lemma AddNoteOpensPrompt(qs: seq<Question>, s: State, env: SendEnv)
    ensures ReviewCallbackStep(qs, s, ActionAddNote, env)
      == Step(s.(phase := AddNote), [AnswerCallback, Edit(NotePrompt, true)])
  {
  }

  /** The group receives exactly one post when the group is configured and
      the delivery goes through, and none otherwise; the post is the group
      document built from the session's answers and note. */
  lemma SendPostsOnce(qs: seq<Question>, s: State, env: SendEnv)
    ensures var r := SendStep(qs, s, env);
      var delivered := env.target.ChatId? && env.delivery == Done;
      && (delivered ==>
            && r.outs[0] == GroupPost(env.target.id, GroupText(qs, s.answers, s.note, env.user, env.timestamp))
            && forall i | 1 <= i < |r.outs| :: !r.outs[i].GroupPost?)
      && (!delivered ==> forall i | 0 <= i < |r.outs| :: !r.outs[i].GroupPost?)
  {
    SendReportsStage(qs, s, env);
  }

  /** A failure after the post went out keeps the session, so pressing
      "send" again posts the same questionnaire a second time. */
  lemma RetryAfterLateFailurePostsTwice(qs: seq<Question>, s: State, env: SendEnv, retry: SendEnv)
    requires env.target.ChatId? && env.delivery == Done && env.markupRemoval.Failed?
    requires retry.target == env.target && retry.delivery == Done
    requires retry.user == env.user && retry.timestamp == env.timestamp
    ensures var first := SendStep(qs, s, env);
      var second := SendStep(qs, first.next, retry);
      && first.outs[0].GroupPost? && second.outs[0].GroupPost?
      && first.outs[0] == second.outs[0]
  {
  }

  /** With the wiring as written, `/cancel` on the review leaves the
      buttons live: "send" then posts a questionnaire without a single
      answer to the group, and the session breaks the invariant in between. */
  lemma CancelAsWiredLeavesReviewOpen(qs: seq<Question>, s: State, env: SendEnv)
    requires WellFormed(qs) && Inv(qs, s) && s.phase == Review
    requires env.target.ChatId? && env.delivery == Done
    ensures var c := CommandCancelAsWiredStep(s).next;
      && c.phase == Review && c.answers == map[] && c.note == ""
      && !Inv(qs, c)
      && SendStep(qs, c, env).outs[0]
           == GroupPost(env.target.id, GroupText(qs, map[], "", env.user, env.timestamp))
  {
  }

  /** `/cancel` handled by the conversation's own fallback, as intended,
      ends the conversation: no handler takes a button press or a text
      afterwards, and the session satisfies the invariant. */
  lemma CancelEndsConversation(qs: seq<Question>, s: State)
    requires WellFormed(qs)
    ensures var c := CancelStep(s).next;
      && c.phase == End && c.answers == map[] && c.note == "" && c.qIdx == 0
      && Inv(qs, c)
  {
    ClearedInv(qs);
  }

  // ---------------------------------------------------------------------
  // Every handler keeps the invariant
  // ---------------------------------------------------------------------

  /** Accepting a stripped answer, valid when it is the phone number,
      keeps the invariant. */
  lemma AcceptKeepsInv(qs: seq<Question>, s: State, t: string)
    requires WellFormed(qs) && Inv(qs, s) && s.phase == TextQuestion
    requires IsStripped(t) && (qs[s.qIdx].key == PhoneKey ==> IsValidPhone(t))
    ensures Inv(qs, Accept(qs, s, t))
  {
    var key := qs[s.qIdx].key;
    var r := Accept(qs, s, t);
    KeysBelowStep(qs, s.qIdx);
    assert r.answers.Keys == KeysBelow(qs, r.qIdx);
    if key == PhoneKey {
      assert r.answers[PhoneKey] == t;
    } else if PhoneKey in r.answers {
      assert r.answers[PhoneKey] == s.answers[PhoneKey];
    }
  }

  lemma OnTextKeepsInv(qs: seq<Question>, s: State, text: string)
    requires WellFormed(qs) && Inv(qs, s) && s.phase == TextQuestion
    ensures Inv(qs, OnTextStep(qs, s, text).next)
  {
    var t := Strip(text);
    if !(qs[s.qIdx].key == PhoneKey && !IsValidPhone(t)) {
      AcceptKeepsInv(qs, s, t);
    }
  }

  lemma OnNoteTextKeepsInv(qs: seq<Question>, s: State, text: string)
    requires Inv(qs, s) && s.phase == AddNote
    ensures Inv(qs, OnNoteTextStep(qs, s, text).next)
  {
  }

  lemma ReviewCallbackKeepsInv(qs: seq<Question>, s: State, action: string, env: SendEnv)
    requires WellFormed(qs) && Inv(qs, s) && s.phase == Review
    ensures Inv(qs, ReviewCallbackStep(qs, s, action, env).next)
  {
    ClearedInv(qs);
  }

  // ---------------------------------------------------------------------
  // A whole interview
  // ---------------------------------------------------------------------

  lemma {:induction false} AnswersFromKeys(qs: seq<Question>, texts: seq<string>, n: nat)
    requires n <= |qs| && n <= |texts|
    ensures AnswersFrom(qs, texts, n).Keys == KeysBelow(qs, n)
  {
    if n > 0 {
      AnswersFromKeys(qs, texts, n - 1);
      assert KeysBelow(qs, n) == KeysBelow(qs, n - 1) + {qs[n - 1].key};
    }
  }

  /** The first of the remaining texts is accepted as the answer to
      question n. */
  lemma FeedOne(qs: seq<Question>, texts: seq<string>, n: nat)
    requires n < |qs| == |texts|
    requires qs[n].key == PhoneKey ==> IsValidPhone(Strip(texts[n]))
    ensures var s := State(AnswersFrom(qs, texts, n), "", n, TextQuestion);
      AfterTexts(qs, s, texts[n..])
        == AfterTexts(qs, State(AnswersFrom(qs, texts, n + 1), "", n + 1,
                                if n + 1 < |qs| then TextQuestion else Review), texts[n + 1..])
  {
    var s := State(AnswersFrom(qs, texts, n), "", n, TextQuestion);
    StripIdempotent(texts[n]);
    assert OnTextStep(qs, s, texts[n]).next == Accept(qs, s, Strip(texts[n]));
    assert texts[n..][1..] == texts[n + 1..];
  }

  lemma {:induction false} FeedFrom(qs: seq<Question>, texts: seq<string>, n: nat)
    requires |texts| == |qs| && n < |qs|
    requires forall i | 0 <= i < |qs| :: qs[i].key == PhoneKey ==> IsValidPhone(Strip(texts[i]))
    ensures AfterTexts(qs, State(AnswersFrom(qs, texts, n), "", n, TextQuestion), texts[n..])
      == State(AnswersFrom(qs, texts, |qs|), "", |qs|, Review)
    decreases |qs| - n
  {
    FeedOne(qs, texts, n);
    if n + 1 < |qs| {
      FeedFrom(qs, texts, n + 1);
    } else {
      assert texts[n + 1..] == [];
    }
  }

  /** Starting an interview and answering every question in turn, with a
      valid phone number, opens the review holding exactly the stripped
      answers under their keys and no note. */
  lemma InterviewCollectsAnswers(qs: seq<Question>, s: State, texts: seq<string>)
    requires WellFormed(qs) && |texts| == |qs|
    requires forall i | 0 <= i < |qs| :: qs[i].key == PhoneKey ==> IsValidPhone(Strip(texts[i]))
    ensures var done := AfterTexts(qs, InterviewStep(qs, s).next, texts);
      && done == State(AnswersFrom(qs, texts, |qs|), "", |qs|, Review)
      && done.answers.Keys == KeysBelow(qs, |qs|)
      && forall i | 0 <= i < |qs| :: done.answers[qs[i].key] == Strip(texts[i])
  {
    FeedFrom(qs, texts, 0);
    assert texts[0..] == texts;
    assert InterviewStep(qs, s).next == State(AnswersFrom(qs, texts, 0), "", 0, TextQuestion);
    AnswersFromKeys(qs, texts, |qs|);
    AnswersFromLookup(qs, texts, |qs|);
  }

  lemma {:induction false} AnswersFromLookup(qs: seq<Question>, texts: seq<string>, n: nat)
    requires WellFormed(qs) && n <= |qs| && n <= |texts|
    ensures forall i | 0 <= i < n ::
      qs[i].key in AnswersFrom(qs, texts, n) && AnswersFrom(qs, texts, n)[qs[i].key] == Strip(texts[i])
  {
    if n > 0 {
      AnswersFromLookup(qs, texts, n - 1);
    }
  }
}

=== FILE: decimal.dfy ===
/** Python's `str(n)` for an integer, as used when the submitter's numeric
    Telegram id is written into the group message. */
module Decimal {
  import opened Text

  function DigitChar(d: nat): (c: char)
    requires d < 10
    ensures IsAsciiDigit(c)
  {
    ('0' as int + d) as char
  }

  /** The value of a string of decimal digits, most significant first. */
  function DigitsValue(s: string): nat
    requires forall i | 0 <= i < |s| :: IsAsciiDigit(s[i])
  {
    if s == [] then 0
    else
      var last := s[|s| - 1];
      assert IsAsciiDigit(last);
      DigitsValue(s[..|s| - 1]) * 10 + (last as int - '0' as int)
  }

  /** `str(n)` for n >= 0: digits only, never empty, and no leading zero
      unless the number is zero itself. */
  function NatToString(n: nat): (r: string)
    ensures |r| >= 1
    ensures forall i | 0 <= i < |r| :: IsAsciiDigit(r[i])
    ensures r[0] == '0' ==> n == 0
  {
    if n < 10 then [DigitChar(n)] else NatToString(n / 10) + [DigitChar(n % 10)]
  }

  /** `str(n)` for any integer: a minus sign before the digits of |n| when
      n is negative. */
  function IntToString(n: int): (r: string)
    ensures '<' !in r && '&' !in r
  {
    if n < 0 then "-" + NatToString(-n) else NatToString(n)
  }

  /** Reading the digits back gives the number that was written. */
  lemma {:induction false} NatToStringRoundTrip(n: nat)
    ensures DigitsValue(NatToString(n)) == n
  {
    var r := NatToString(n);
    if n >= 10 {
      NatToStringRoundTrip(n / 10);
      assert r[..|r| - 1] == NatToString(n / 10);
    }
  }

  /** The sign and the digits of `str(n)` give back n. */
  lemma IntToStringRoundTrip(n: int)
    ensures var r := IntToString(n);
      && |r| >= 1
      && (r[0] == '-' <==> n < 0)
      && (n < 0 ==> (forall i | 1 <= i < |r| :: IsAsciiDigit(r[i])) && -(DigitsValue(r[1..]) as int) == n)
      && (n >= 0 ==> (forall i | 0 <= i < |r| :: IsAsciiDigit(r[i])) && DigitsValue(r) == n)
  {
    var r := IntToString(n);
    if n < 0 {
      NatToStringRoundTrip(-n);
      assert r[1..] == NatToString(-n);
    } else {
      NatToStringRoundTrip(n);
    }
  }
}

=== FILE: formatter.dfy ===
/** The two HTML documents built from a session's answers: the review shown
    to the candidate (`build_review_text_html`) and the submission posted to
    the HR group (`build_group_text_html`). Both walk the questionnaire in
    order, escape every piece of user text, and print an em-dash where an
    answer is missing. */
module Formatter {
  import opened Text
  import opened Html
  import opened Catalog
  import opened Decimal

  const EmDash: string := "—"

  /** `t` between the bold tags. */
  function Bold(t: string): string {
    "<b>" + t + "</b>"
  }

  const ReviewHeading: string := Bold("Перевірте відповіді кандидата:") + "\n"
  const NoteHeading: string := Bold("Примітка:") + "\n"

  const GroupHeading: string := "📝 " + Bold("Нова анкета кандидата") + "\n🕒 "
  const ManagerNoteHeading: string := "🗒 " + Bold("Примітка менеджера:") + "\n"
  const UsernamePrefix: string := "👤 Telegram: @"
  const IdPrefix: string := "🆔 Telegram ID: "

  /** The person pressing "send". An empty `username` stands for a Telegram
      account without one (both are falsy in the source's test). */
  datatype User = User(username: string, id: int)

  // ---------------------------------------------------------------------
  // Review document
  // ---------------------------------------------------------------------

  /** What the review shows for a question: the stripped answer, or an
      em-dash when the answer is missing or blank. */
  function ReviewAnswer(answers: map<string, string>, key: string): (r: string)
    ensures key !in answers || IsBlank(answers[key]) ==> r == EmDash
    ensures key in answers && !IsBlank(answers[key]) ==> r == Strip(answers[key]) && r != ""
  {
    var a := if key in answers then Strip(answers[key]) else "";
    if a == "" then EmDash else a
  }

  /** Question i in bold followed by its answer, both escaped. */
  function ReviewBlock(qs: seq<Question>, answers: map<string, string>, i: nat): string
    requires i < |qs|
  {
    Bold(Escape(qs[i].prompt)) + "\n" + Escape(ReviewAnswer(answers, qs[i].key)) + "\n"
  }

  /** The review blocks of the first n questions, in catalogue order. */
  function ReviewBlocks(qs: seq<Question>, answers: map<string, string>, n: nat): seq<string>
    requires n <= |qs|
  {
    if n == 0 then [] else ReviewBlocks(qs, answers, n - 1) + [ReviewBlock(qs, answers, n - 1)]
  }

  /** The note as the review shows it: stripped and escaped, or an em-dash
      when it is blank. */
  function NoteText(note: string): string {
    if Strip(note) != "" then Escape(Strip(note)) else EmDash
  }

  /** The closing note line. */
  function NoteLine(note: string): string {
    NoteHeading + NoteText(note)
  }

  function ReviewLines(qs: seq<Question>, answers: map<string, string>, note: string): seq<string> {
    [ReviewHeading] + ReviewBlocks(qs, answers, |qs|) + [NoteLine(note)]
  }

  /** The review document: its lines joined by newlines. */
  function ReviewText(qs: seq<Question>, answers: map<string, string>, note: string): string {
    Join(ReviewLines(qs, answers, note), "\n")
  }

  /** `build_review_text_html`: collects the lines one question at a time. */
  method BuildReviewTextHtml(qs: seq<Question>, answers: map<string, string>, note: string) returns (text: string)
    ensures text == ReviewText(qs, answers, note)
  {
    var lines := [ReviewHeading];
    for i := 0 to |qs|
      invariant lines == [ReviewHeading] + ReviewBlocks(qs, answers, i)
    {
      var q := qs[i];
      var ans := if q.key in answers then Strip(answers[q.key]) else "";
      if ans == "" {
        ans := EmDash;
      }
      lines := lines + [Bold(Escape(q.prompt)) + "\n" + Escape(ans) + "\n"];
    }
    var noteText := Strip(note);
    lines := lines + [NoteHeading + (if noteText != "" then Escape(noteText) else EmDash)];
    text := Join(lines, "\n");
  }

  lemma {:induction false} ReviewBlocksAt(qs: seq<Question>, answers: map<string, string>, n: nat)
    requires n <= |qs|
    ensures |ReviewBlocks(qs, answers, n)| == n
    ensures forall i | 0 <= i < n :: ReviewBlocks(qs, answers, n)[i] == ReviewBlock(qs, answers, i)
  {
    if n > 0 {
      ReviewBlocksAt(qs, answers, n - 1);
      var prev := ReviewBlocks(qs, answers, n - 1);
      var b := ReviewBlock(qs, answers, n - 1);
      assert ReviewBlocks(qs, answers, n) == prev + [b];
      forall i | 0 <= i < n
        ensures ReviewBlocks(qs, answers, n)[i] == ReviewBlock(qs, answers, i)
      {
        if i < n - 1 {
          assert (prev + [b])[i] == prev[i];
        }
      }
    }
  }

  /** The review lists every question once, in catalogue order, each with
      what `ReviewAnswer` shows for it, between the heading and the note. */
  lemma ReviewListsEveryQuestion(qs: seq<Question>, answers: map<string, string>, note: string)
    ensures var lines := ReviewLines(qs, answers, note);
      && |lines| == |qs| + 2
      && lines[0] == ReviewHeading
      && (forall i | 0 <= i < |qs| ::
            lines[i + 1] == Bold(Escape(qs[i].prompt)) + "\n" + Escape(ReviewAnswer(answers, qs[i].key)) + "\n")
      && lines[|qs| + 1] == NoteLine(note)
  {
    var lines := ReviewLines(qs, answers, note);
    ReviewLinesLength(qs, answers, note);
    forall i | 0 <= i < |qs|
      ensures lines[i + 1] == Bold(Escape(qs[i].prompt)) + "\n" + Escape(ReviewAnswer(answers, qs[i].key)) + "\n"
    {
      ReviewLineAt(qs, answers, note, i);
    }
  }

  lemma ReviewLineAt(qs: seq<Question>, answers: map<string, string>, note: string, i: nat)
    requires i < |qs|
    ensures |ReviewLines(qs, answers, note)| == |qs| + 2
    ensures ReviewLines(qs, answers, note)[i + 1] == ReviewBlock(qs, answers, i)
  {
    ReviewBlocksAt(qs, answers, |qs|);
    FramedAt(ReviewHeading, ReviewBlocks(qs, answers, |qs|), NoteLine(note), i);
  }

  /** A blank note is shown as an em-dash, any other note stripped and escaped. */
  lemma NoteLineShows(note: string)
    ensures IsBlank(note) ==> NoteLine(note) == NoteHeading + EmDash
    ensures !IsBlank(note) ==> NoteLine(note) == NoteHeading + Escape(Strip(note)) && Strip(note) != ""
  {
  }

  // ---------------------------------------------------------------------
  // Group document
  // ---------------------------------------------------------------------

  /** What the group message shows for a question. An em-dash stands in
      for a missing or empty answer and any other answer is stripped, so an
      answer made only of whitespace shows as an empty line. (The source
      strips the em-dash too, which leaves it unchanged: see
      `EmDashIsStripped`.) */
  function GroupAnswer(answers: map<string, string>, key: string): (r: string)
    ensures key !in answers || answers[key] == "" ==> r == EmDash
    ensures key in answers && answers[key] != "" ==> r == Strip(answers[key])
  {
    if key in answers && answers[key] != "" then Strip(answers[key]) else EmDash
  }

  lemma EmDashIsStripped()
    ensures Strip(EmDash) == EmDash
  {
    assert IsStripped(EmDash);
  }

  /** Question i in bold, its answer, and an empty line. */
  function GroupBlock(qs: seq<Question>, answers: map<string, string>, i: nat): string
    requires i < |qs|
  {
    Bold(Escape(qs[i].prompt)) + "\n" + Escape(GroupAnswer(answers, qs[i].key)) + "\n\n"
  }

  /** The group blocks of the first n questions, in catalogue order. */
  function GroupBlocks(qs: seq<Question>, answers: map<string, string>, n: nat): seq<string>
    requires n <= |qs|
  {
    if n == 0 then [] else GroupBlocks(qs, answers, n - 1) + [GroupBlock(qs, answers, n - 1)]
  }

  /** The manager's note, present only when it is not blank. */
  function ManagerNote(note: string): string {
    if Strip(note) != "" then ManagerNoteHeading + Escape(Strip(note)) + "\n\n" else ""
  }

  /** The submitter's username, when the account has one. */
  function UsernameLine(user: User): string {
    if user.username != "" then UsernamePrefix + Escape(user.username) + "\n" else ""
  }

  /** The submitter's numeric id, always present. */
  function IdLine(user: User): string {
    IdPrefix + IntToString(user.id) + "\n"
  }

  function GroupHead(timestamp: string): string {
    GroupHeading + Escape(timestamp) + "\n\n"
  }

  /** The group document; `timestamp` is the formatted UTC time of sending. */
  function GroupText(qs: seq<Question>, answers: map<string, string>, note: string, user: User, timestamp: string): string {
    GroupHead(timestamp) + Concat(GroupBlocks(qs, answers, |qs|))
    + ManagerNote(note) + UsernameLine(user) + IdLine(user)
  }

  /** `build_group_text_html`: appends one block per question to the text,
      then the note (when there is one) and the submitter. */
  method BuildGroupTextHtml(qs: seq<Question>, answers: map<string, string>, note: string, user: User, timestamp: string)
    returns (text: string)
    ensures text == GroupText(qs, answers, note, user, timestamp)
  {
    text := GroupHeading + Escape(timestamp) + "\n\n";
    EmDashIsStripped();
    for i := 0 to |qs|
      invariant text == GroupHead(timestamp) + Concat(GroupBlocks(qs, answers, i))
    {
      var q := qs[i];
      var qEsc := Escape(q.prompt);
      var a := if q.key in answers && answers[q.key] != "" then answers[q.key] else EmDash;
      var aEsc := Escape(Strip(a));
      var block := Bold(qEsc) + "\n" + aEsc + "\n\n";
      GroupStep(qs, answers, i, GroupHead(timestamp), block);
      text := text + block;
    }
    text := text + ManagerNote(note) + UsernameLine(user) + IdLine(user);
  }

  /** One turn of the loop in `BuildGroupTextHtml`. */
  lemma GroupStep(qs: seq<Question>, answers: map<string, string>, i: nat, head: string, block: string)
    requires i < |qs| && block == GroupBlock(qs, answers, i)
    ensures head + Concat(GroupBlocks(qs, answers, i + 1)) == head + Concat(GroupBlocks(qs, answers, i)) + block
  {
    ConcatAppend(GroupBlocks(qs, answers, i), block);
  }

  lemma {:induction false} GroupBlocksLength(qs: seq<Question>, answers: map<string, string>, n: nat)
    requires n <= |qs|
    ensures |GroupBlocks(qs, answers, n)| == n
  {
    if n > 0 {
      GroupBlocksLength(qs, answers, n - 1);
    }
  }

  lemma {:induction false} GroupBlockAt(qs: seq<Question>, answers: map<string, string>, n: nat, i: nat)
    requires i < n <= |qs|
    ensures |GroupBlocks(qs, answers, n)| == n
    ensures GroupBlocks(qs, answers, n)[i] == GroupBlock(qs, answers, i)
  {
    GroupBlocksLength(qs, answers, n - 1);
    var prev, b := GroupBlocks(qs, answers, n - 1), GroupBlock(qs, answers, n - 1);
    assert GroupBlocks(qs, answers, n) == prev + [b];
    if i < n - 1 {
      GroupBlockAt(qs, answers, n - 1, i);
      assert (prev + [b])[i] == prev[i];
    } else {
      assert (prev + [b])[i] == b;
    }
  }

  lemma GroupBlocksAt(qs: seq<Question>, answers: map<string, string>, n: nat)
    requires n <= |qs|
    ensures |GroupBlocks(qs, answers, n)| == n
    ensures forall i | 0 <= i < n :: GroupBlocks(qs, answers, n)[i] == GroupBlock(qs, answers, i)
  {
    GroupBlocksLength(qs, answers, n);
    forall i | 0 <= i < n
      ensures GroupBlocks(qs, answers, n)[i] == GroupBlock(qs, answers, i)
    {
      GroupBlockAt(qs, answers, n, i);
    }
  }

  /** The group message is its head, then one block per question in
      catalogue order, each with what `GroupAnswer` shows for it, then the
      note and the submitter. */
  lemma GroupListsEveryQuestion(qs: seq<Question>, answers: map<string, string>, note: string, user: User, timestamp: string)
    ensures var blocks := GroupBlocks(qs, answers, |qs|);
      && GroupText(qs, answers, note, user, timestamp)
         == GroupHead(timestamp) + Concat(blocks) + ManagerNote(note) + UsernameLine(user) + IdLine(user)
      && |blocks| == |qs|
      && (forall i | 0 <= i < |qs| ::
            blocks[i] == Bold(Escape(qs[i].prompt)) + "\n" + Escape(GroupAnswer(answers, qs[i].key)) + "\n\n")
  {
    GroupBlocksAt(qs, answers, |qs|);
  }

  // ---------------------------------------------------------------------
  // Markup cannot be injected
  // ---------------------------------------------------------------------

  lemma BoldTags(t: string)
    requires '<' !in t
    ensures multiset(Bold(t))['<'] == 2
  {
    assert multiset("<b>")['<'] == 1;
    assert multiset("</b>")['<'] == 1;
  }

  lemma FramedBoldTags(pre: string, t: string, post: string)
    requires '<' !in pre && '<' !in t && '<' !in post
    ensures multiset(pre + Bold(t) + post)['<'] == 2
  {
    BoldTags(t);
  }

  lemma ReviewHeadingTags()
    ensures multiset(ReviewHeading)['<'] == 2
  {
    BoldTags("Перевірте відповіді кандидата:");
    assert multiset("\n")['<'] == 0;
  }

  lemma NoteHeadingTags()
    ensures multiset(NoteHeading)['<'] == 2
  {
    BoldTags("Примітка:");
    assert multiset("\n")['<'] == 0;
  }

  lemma GroupHeadingTags()
    ensures multiset(GroupHeading)['<'] == 2
  {
    FramedBoldTags("📝 ", "Нова анкета кандидата", "\n🕒 ");
  }

  lemma ManagerNoteHeadingTags()
    ensures multiset(ManagerNoteHeading)['<'] == 2
  {
    FramedBoldTags("🗒 ", "Примітка менеджера:", "\n");
  }

  lemma ReviewBlockTags(qs: seq<Question>, answers: map<string, string>, i: nat)
    requires i < |qs|
    ensures multiset(ReviewBlock(qs, answers, i))['<'] == 2
  {
    assert multiset("<b>")['<'] == 1;
    assert multiset("</b>")['<'] == 1;
    assert multiset("\n")['<'] == 0;
  }

  lemma NoteTextTags(note: string)
    ensures multiset(NoteText(note))['<'] == 0
  {
    if Strip(note) != "" {
      NotInCount(Escape(Strip(note)), '<');
    } else {
      assert multiset(EmDash)['<'] == 0;
    }
  }

  lemma NoteLineTags(note: string)
    ensures multiset(NoteLine(note))['<'] == 2
  {
    NoteHeadingTags();
    NoteTextTags(note);
    CountAppend(NoteHeading, NoteText(note), '<');
  }

  lemma ReviewLinesLength(qs: seq<Question>, answers: map<string, string>, note: string)
    ensures |ReviewLines(qs, answers, note)| == |qs| + 2
  {
    ReviewBlocksAt(qs, answers, |qs|);
  }

  lemma FirstReviewLineTags(qs: seq<Question>, answers: map<string, string>, note: string)
    ensures multiset(ReviewLines(qs, answers, note)[0])['<'] == 2
  {
    ReviewHeadingTags();
  }

  lemma LastReviewLineTags(qs: seq<Question>, answers: map<string, string>, note: string)
    ensures |ReviewLines(qs, answers, note)| == |qs| + 2
    ensures multiset(ReviewLines(qs, answers, note)[|qs| + 1])['<'] == 2
  {
    ReviewBlocksAt(qs, answers, |qs|);
    Framed(ReviewHeading, ReviewBlocks(qs, answers, |qs|), NoteLine(note));
    NoteLineTags(note);
  }

  lemma MiddleReviewLineTags(qs: seq<Question>, answers: map<string, string>, note: string, i: nat)
    requires 0 < i <= |qs|
    ensures |ReviewLines(qs, answers, note)| == |qs| + 2
    ensures multiset(ReviewLines(qs, answers, note)[i])['<'] == 2
  {
    var blocks := ReviewBlocks(qs, answers, |qs|);
    ReviewBlocksAt(qs, answers, |qs|);
    FramedAt(ReviewHeading, blocks, NoteLine(note), i - 1);
    ReviewBlockTags(qs, answers, i - 1);
  }

  lemma ReviewLinesTags(qs: seq<Question>, answers: map<string, string>, note: string)
    ensures var lines := ReviewLines(qs, answers, note);
      forall i | 0 <= i < |lines| :: multiset(lines[i])['<'] == 2
  {
    var lines := ReviewLines(qs, answers, note);
    ReviewLinesLength(qs, answers, note);
    forall i | 0 <= i < |lines|
      ensures multiset(lines[i])['<'] == 2
    {
      if i == 0 {
        FirstReviewLineTags(qs, answers, note);
      } else if i == |qs| + 1 {
        LastReviewLineTags(qs, answers, note);
      } else {
        MiddleReviewLineTags(qs, answers, note, i);
      }
    }
  }

  /** Whatever the candidate typed, every line of the review holds exactly
      two tags, so the document holds two per question, two for the heading
      and two for the note. */
  lemma ReviewMarkupIsFixed(qs: seq<Question>, answers: map<string, string>, note: string)
    ensures multiset(ReviewText(qs, answers, note))['<'] == 2 * (|qs| + 2)
  {
    var lines := ReviewLines(qs, answers, note);
    ReviewLinesLength(qs, answers, note);
    ReviewLinesTags(qs, answers, note);
    TotalCountUniform(lines, '<', 2);
    JoinCount(lines, "\n", '<');
  }

  lemma GroupBlockTags(qs: seq<Question>, answers: map<string, string>, i: nat)
    requires i < |qs|
    ensures multiset(GroupBlock(qs, answers, i))['<'] == 2
  {
    assert multiset("<b>")['<'] == 1;
    assert multiset("</b>")['<'] == 1;
    assert multiset("\n")['<'] == 0;
    assert multiset("\n\n")['<'] == 0;
  }

  lemma GroupBlocksTags(qs: seq<Question>, answers: map<string, string>)
    ensures multiset(Concat(GroupBlocks(qs, answers, |qs|)))['<'] == 2 * |qs|
  {
    var blocks := GroupBlocks(qs, answers, |qs|);
    GroupBlocksAt(qs, answers, |qs|);
    forall i | 0 <= i < |blocks|
      ensures multiset(blocks[i])['<'] == 2
    {
      GroupBlockTags(qs, answers, i);
    }
    TotalCountUniform(blocks, '<', 2);
    ConcatCount(blocks, '<');
  }

  lemma GroupHeadTags(timestamp: string)
    ensures multiset(GroupHead(timestamp))['<'] == 2
  {
    GroupHeadingTags();
    assert multiset("\n\n")['<'] == 0;
  }

  lemma ManagerNoteTags(note: string)
    ensures multiset(ManagerNote(note))['<'] == if Strip(note) != "" then 2 else 0
  {
    if Strip(note) != "" {
      ManagerNoteHeadingTags();
      assert multiset("\n\n")['<'] == 0;
    }
  }

  lemma UsernameLineTags(user: User)
    ensures multiset(UsernameLine(user))['<'] == 0
  {
    assert '<' !in UsernamePrefix && '<' !in "\n";
  }

  lemma IdLineTags(user: User)
    ensures multiset(IdLine(user))['<'] == 0
  {
    assert '<' !in IdPrefix && '<' !in "\n";
  }

  /** Whatever the candidate, the manager or the account name contain, the
      group message holds the same tags: two for the heading, two per
      question, and two for the note when there is one. */
  lemma GroupMarkupIsFixed(qs: seq<Question>, answers: map<string, string>, note: string, user: User, timestamp: string)
    ensures multiset(GroupText(qs, answers, note, user, timestamp))['<']
      == 2 * (|qs| + 1) + (if Strip(note) != "" then 2 else 0)
  {
    var head := GroupHead(timestamp);
    var body := Concat(GroupBlocks(qs, answers, |qs|));
    var mn, ul, il := ManagerNote(note), UsernameLine(user), IdLine(user);
    GroupHeadTags(timestamp);
    GroupBlocksTags(qs, answers);
    ManagerNoteTags(note);
    UsernameLineTags(user);
    IdLineTags(user);
    CountAppend5(head, body, mn, ul, il, '<');
  }

  // ---------------------------------------------------------------------
  // The two documents compared
  // ---------------------------------------------------------------------

  /** For answers stored stripped, as the interview stores them, both
      documents show the same thing for every question. */
  lemma StrippedAnswersShowAlike(answers: map<string, string>, key: string)
    requires key in answers ==> IsStripped(answers[key])
    ensures GroupAnswer(answers, key) == ReviewAnswer(answers, key)
  {
    assert IsStripped(EmDash);
  }

  /** The two documents disagree on an answer made only of spaces: the
      review prints an em-dash, the group message an empty line. The
      interview never stores such an answer. */
  lemma SpacesOnlyAnswerShownDifferently(key: string)
    ensures ReviewAnswer(map[key := " "], key) == EmDash
    ensures GroupAnswer(map[key := " "], key) == ""
  {
    assert IsBlank(" ");
  }
}

=== FILE: html.dfy ===
/** `html.escape(s)` with its default `quote=True`: the five characters that
    carry meaning in HTML markup are replaced by character references. */
module Html {

  /** True for the characters `html.escape` rewrites. */
  predicate IsSpecial(c: char) {
    c == '&' || c == '<' || c == '>' || c == '"' || c == '\''
  }

  function EscapeChar(c: char): (r: string)
    ensures IsSpecial(c) ==> |r| > 1 && r[0] == '&'
    ensures !IsSpecial(c) ==> r == [c]
    ensures '<' !in r && '>' !in r && '"' !in r && '\'' !in r
  {
    if c == '&' then "&amp;"
    else if c == '<' then "&lt;"
    else if c == '>' then "&gt;"
    else if c == '"' then "&quot;"
    else if c == '\'' then "&#x27;"
    else [c]
  }

  /** The escaped text: no character of it can open or close a tag or end
      an attribute value. */
  function Escape(s: string): (r: string)
    ensures '<' !in r && '>' !in r && '"' !in r && '\'' !in r
  {
    if s == [] then [] else EscapeChar(s[0]) + Escape(s[1..])
  }

  /** Reads back text produced by `Escape`: each of the five character
      references becomes the character it stands for. */
  function Unescape(s: string): string {
    if s == [] then []
    else if s[0] != '&' then [s[0]] + Unescape(s[1..])
    else if |s| >= 5 && s[..5] == "&amp;" then "&" + Unescape(s[5..])
    else if |s| >= 4 && s[..4] == "&lt;" then "<" + Unescape(s[4..])
    else if |s| >= 4 && s[..4] == "&gt;" then ">" + Unescape(s[4..])
    else if |s| >= 6 && s[..6] == "&quot;" then "\"" + Unescape(s[6..])
    else if |s| >= 6 && s[..6] == "&#x27;" then "'" + Unescape(s[6..])
    else [s[0]] + Unescape(s[1..])
  }

  /** Each character reference is read back as the character it encodes. */
  lemma UnescapeReference(r: string, c: char, rest: string)
    requires (r, c) in {("&amp;", '&'), ("&lt;", '<'), ("&gt;", '>'), ("&quot;", '"'), ("&#x27;", '\'')}
    ensures Unescape(r + rest) == [c] + Unescape(rest)
  {
    var e := r + rest;
    assert e[..|r|] == r && e[|r|..] == rest && e[0] == '&';
    if c == '&' {
    } else if c == '<' || c == '>' {
      assert e[1] == r[1];
    } else {
      assert e[1] == r[1] && e[..4] != "&lt;" && e[..4] != "&gt;";
    }
  }

  lemma UnescapePlain(c: char, rest: string)
    requires !IsSpecial(c)
    ensures Unescape([c] + rest) == [c] + Unescape(rest)
  {
    var e := [c] + rest;
    assert e[0] == c && e[1..] == rest;
  }

  lemma UnescapeChar(c: char, rest: string)
    ensures Unescape(EscapeChar(c) + rest) == [c] + Unescape(rest)
  {
    if IsSpecial(c) {
      UnescapeReference(EscapeChar(c), c, rest);
    } else {
      UnescapePlain(c, rest);
    }
  }

  /** Escaping loses nothing: the reader of the rendered message sees
      exactly the characters the user typed. */
  lemma {:induction false} UnescapeEscape(s: string)
    ensures Unescape(Escape(s)) == s
  {
    if s != [] {
      UnescapeChar(s[0], Escape(s[1..]));
      UnescapeEscape(s[1..]);
      assert [s[0]] + s[1..] == s;
    }
  }

  /** Text with nothing to escape is left as it is. */
  lemma {:induction false} EscapeIdentity(s: string)
    requires forall i | 0 <= i < |s| :: !IsSpecial(s[i])
    ensures Escape(s) == s
  {
    if s != [] {
      EscapeIdentity(s[1..]);
      assert [s[0]] + s[1..] == s;
    }
  }

  /** Escaping a concatenation escapes each part. */
  lemma {:induction false} EscapeAppend(a: string, b: string)
    ensures Escape(a + b) == Escape(a) + Escape(b)
  {
    if a != [] {
      assert (a + b)[0] == a[0] && (a + b)[1..] == a[1..] + b;
      EscapeAppend(a[1..], b);
    } else {
      assert a + b == b;
    }
  }
}

=== FILE: phone.dfy ===
/** The phone-number check applied to the "phone" answer: the stripped text
    must match the regular expression `^380\d{9}$` from its first character. */
module Phone {
  import opened Text

  /** Python's `$` without MULTILINE: the end of the string, or a single
      newline that is the last character. */
  predicate AtEnd(rest: string) {
    rest == [] || rest == "\n"
  }

  /** `\d{n}$` matched at the start of `s`. */
  predicate MatchesDigits(s: string, n: nat)
    decreases n
  {
    if n == 0 then AtEnd(s)
    else |s| > 0 && IsAsciiDigit(s[0]) && MatchesDigits(s[1..], n - 1)
  }

  /** `^380\d{9}$` matched at the start of `t` (`re.match`). */
  predicate MatchesPhonePattern(t: string) {
    |t| >= 3 && t[..3] == "380" && MatchesDigits(t[3..], 9)
  }

  /** `is_valid_phone`: the pattern is matched against the stripped input. */
  predicate IsValidPhone(phone: string) {
    MatchesPhonePattern(Strip(phone))
  }

  /** What `\d{n}$` accepts: n digits, optionally followed by one newline. */
  lemma {:induction false} MatchesDigitsExactly(s: string, n: nat)
    ensures MatchesDigits(s, n) <==>
      && (|s| == n || (|s| == n + 1 && s[n] == '\n'))
      && (forall i | 0 <= i < n :: IsAsciiDigit(s[i]))
    decreases n
  {
    if n > 0 && |s| > 0 {
      MatchesDigitsExactly(s[1..], n - 1);
      assert forall i | 1 <= i < n && i < |s| :: s[i] == s[1..][i - 1];
    }
  }

  /** A phone number is valid exactly when, after stripping, it is twelve
      characters long, begins with "380" and continues with nine ASCII digits.
      The newline that `$` tolerates never survives the strip. */
  lemma ValidPhoneCharacterisation(phone: string)
    ensures IsValidPhone(phone) <==>
      var t := Strip(phone);
      && |t| == 12
      && t[..3] == "380"
      && (forall i | 3 <= i < 12 :: IsAsciiDigit(t[i]))
  {
    var t := Strip(phone);
    if |t| >= 3 {
      MatchesDigitsExactly(t[3..], 9);
      assert forall i | 3 <= i < |t| :: t[i] == t[3..][i - 3];
      if |t| == 13 {
        assert t[12] == t[|t| - 1];
        assert !IsSpace(t[12]);
      }
    }
  }

  /** For any nine ASCII digits d, "380"+d is accepted, and so is the same
      text with a trailing space, which the strip removes. */
  lemma AcceptedPhones(d: string)
    requires |d| == 9 && forall i | 0 <= i < 9 :: IsAsciiDigit(d[i])
    ensures IsValidPhone("380" + d)
    ensures IsValidPhone("380" + d + " ")
  {
    var t := "380" + d;
    assert IsStripped(t);
    assert t[..3] == "380";
    assert forall i | 3 <= i < 12 :: t[i] == d[i - 3];
    ValidPhoneCharacterisation(t);
    StripDropsTrailingSpace(t, ' ');
    assert t + [' '] == t + " ";
  }

  /** For any nine ASCII digits d, the number written with a leading '+' is
      refused. */
  lemma RejectedPlusPrefix(d: string)
    requires |d| == 9 && forall i | 0 <= i < 9 :: IsAsciiDigit(d[i])
    ensures !IsValidPhone("+380" + d)
  {
    var plus := "+380" + d;
    assert IsStripped(plus);
    assert plus[..3][0] == '+';
  }

  /** For any nine ASCII digits d, a number one digit short and a number
      without the country code are refused. */
  lemma RejectedWrongLength(d: string)
    requires |d| == 9 && forall i | 0 <= i < 9 :: IsAsciiDigit(d[i])
    ensures !IsValidPhone("380" + d[..8])
    ensures !IsValidPhone("0" + d)
  {
    var short := "380" + d[..8];
    assert IsStripped(short);
    ValidPhoneCharacterisation(short);
    var local := "0" + d;
    assert IsStripped(local);
    ValidPhoneCharacterisation(local);
  }
}

=== FILE: session.dfy ===
/** The handlers as a session class updated in place, with `/cancel` routed
    to the conversation's fallback: one user's session is an object whose
    fields the handlers overwrite, and each handler returns what it sent to
    Telegram. Every method is proved to perform exactly the transition of
    the same name in module Conversation and to keep the session invariant. */
module Handlers {
  import opened Text
  import opened Phone
  import opened Catalog
  import opened Formatter
  import opened Conversation

  /** `context.user_data` for one user (answers, note, q_idx) together with
      the state the conversation handler keeps for that user. */
  class Session {
    const qs: seq<Question>
    var answers: map<string, string>
    var note: string
    var qIdx: nat
    var phase: Phase

    /** The session as a value. */
    function Data(): State
      reads this
    {
      State(answers, note, qIdx, phase)
    }

    ghost predicate Valid()
      reads this
    {
      WellFormed(qs) && Inv(qs, Data())
    }

    /** A user the bot has not talked to yet: empty data, no conversation. */
    constructor (qs: seq<Question>)
      requires WellFormed(qs)
      ensures this.qs == qs && Data() == Cleared && Valid()
    {
      this.qs := qs;
      answers, note, qIdx, phase := map[], "", 0, End;
      new;
      ClearedInv(qs);
    }

    /** `/interview`. */
    method Interview() returns (outs: seq<Output>)
      requires WellFormed(qs)
      modifies this
      ensures Step(Data(), outs) == InterviewStep(qs, old(Data()))
      ensures Valid()
    {
      answers, note, qIdx := map[], "", 0;
      phase := TextQuestion;
      outs := [Reply(qs[0].prompt, false, false)];
      assert KeysBelow(qs, 0) == {};
    }

    /** A text message while a question is open. */
    method OnText(text: string) returns (outs: seq<Output>)
      requires Valid() && phase == TextQuestion
      modifies this
      ensures Step(Data(), outs) == OnTextStep(qs, old(Data()), text)
      ensures Valid()
    {
      ghost var before := Data();
      var key := qs[qIdx].key;
      var t := Strip(text);
      if key == PhoneKey && !IsValidPhone(t) {
        outs := [Reply(PhoneFormatError, false, false)];
        return;
      }
      AcceptKeepsInv(qs, before, t);
      answers := answers[key := t];
      qIdx := qIdx + 1;
      if qIdx < |qs| {
        outs := [Reply(qs[qIdx].prompt, false, false)];
      } else {
        phase := Review;
        var review := BuildReviewTextHtml(qs, answers, note);
        outs := [Reply(review, true, true)];
      }
      assert outs == NextPrompt(qs, Data());
      assert Data() == Accept(qs, before, t);
    }

    /** A text message while the manager's note is awaited. */
    method OnNoteText(text: string) returns (outs: seq<Output>)
      requires Valid() && phase == AddNote
      modifies this
      ensures Step(Data(), outs) == OnNoteTextStep(qs, old(Data()), text)
      ensures Valid()
    {
      var n := Strip(text);
      if n == NoDash {
        n := "";
      }
      note := n;
      phase := Review;
      var review := BuildReviewTextHtml(qs, answers, note);
      outs := [Reply(review, true, true)];
    }

    /** A press on one of the review buttons. For "send", `env` says how the
        configuration reads and how each Telegram call ends. */
    method OnReviewCallback(action: string, env: SendEnv) returns (outs: seq<Output>)
      requires Valid() && phase == Review
      modifies this
      ensures Step(Data(), outs) == ReviewCallbackStep(qs, old(Data()), action, env)
      ensures Valid()
    {
      outs := [AnswerCallback];
      if action == ActionCancel {
        answers, note, qIdx, phase := map[], "", 0, End;
        outs := outs + [Edit(Cancelled, false)];
        ClearedInv(qs);
        return;
      }
      if action == ActionAddNote {
        phase := AddNote;
        outs := outs + [Edit(NotePrompt, true)];
        return;
      }
      if action == ActionSend {
        var sent := SendToGroup(env);
        outs := outs + sent;
      }
    }

    /** The "send" branch: builds the group document, posts it, removes the
        buttons and thanks the candidate, and on the first failure among
        these reports the error and keeps the review open. */
    method SendToGroup(env: SendEnv) returns (outs: seq<Output>)
      requires Valid() && phase == Review
      modifies this
      ensures Step(Data(), outs) == SendStep(qs, old(Data()), env)
      ensures Valid()
    {
      ghost var before := Data();
      var posted: seq<Output> := [];
      var error := "";
      match env.target {
        case NoChatId =>
          error := MissingChatId;
        case BadChatId(e) =>
          error := e;
        case ChatId(id) =>
          var groupText := BuildGroupTextHtml(qs, answers, note, env.user, env.timestamp);
          if env.delivery.Failed? {
            error := env.delivery.error;
          } else {
            posted := [GroupPost(id, groupText)];
            if env.markupRemoval.Failed? {
              error := env.markupRemoval.error;
            } else {
              posted := [GroupPost(id, groupText), RemoveKeyboard];
              if env.confirmation.Failed? {
                error := env.confirmation.error;
              } else {
                outs := [GroupPost(id, groupText), RemoveKeyboard, Reply(Thanks, false, false)];
                answers, note, qIdx, phase := map[], "", 0, End;
                ClearedInv(qs);
                return;
              }
            }
          }
      }
      outs := posted + [Reply(SendErrorPrefix + error, false, false)];
      assert Data() == before;
    }

    /** `/cancel`, handled by the conversation's fallback. As wired, the
        top-level command handler takes the command first: see
        `CommandCancelAsWiredStep`. */
    method Cancel() returns (outs: seq<Output>)
      requires WellFormed(qs)
      modifies this
      ensures Step(Data(), outs) == CancelStep(old(Data()))
      ensures Valid()
    {
      answers, note, qIdx, phase := map[], "", 0, End;
      outs := [Reply(Cancelled, false, false)];
      ClearedInv(qs);
    }
  }
}

=== FILE: text.dfy ===
/** Python's `str.strip()` and `str.join`, the two string primitives the
    interview engine relies on. */
module Text {

  /** The characters Python's `str.isspace` accepts, which is the set
      `str.strip()` removes from both ends of a string. */
  predicate IsSpace(c: char) {
    || c == ' '
    || ('\t' <= c <= '\r')
    || ('\U{1C}' <= c <= '\U{1F}')
    || c == '\U{85}'
    || c == '\U{A0}'
    || c == '\U{1680}'
    || ('\U{2000}' <= c <= '\U{200A}')
    || c == '\U{2028}'
    || c == '\U{2029}'
    || c == '\U{202F}'
    || c == '\U{205F}'
    || c == '\U{3000}'
  }

  /** The digits 0-9: what `\d` matches in the phone pattern, and what
      `str(n)` writes. */
  predicate IsAsciiDigit(c: char) {
    '0' <= c <= '9'
  }

  /** A string with no whitespace at either end: what `strip()` produces. */
  predicate IsStripped(s: string) {
    s == [] || (!IsSpace(s[0]) && !IsSpace(s[|s| - 1]))
  }

  /** True when every character of `s` is whitespace (the empty string included). */
  predicate IsBlank(s: string) {
    forall i | 0 <= i < |s| :: IsSpace(s[i])
  }

  /** `s.lstrip()`: drops the whitespace at the front of `s`. */
  function TrimStart(s: string): (r: string)
    ensures |r| <= |s|
    ensures forall i | 0 <= i < |s| - |r| :: IsSpace(s[i])
    ensures r == [] || !IsSpace(r[0])
  {
    if |s| > 0 && IsSpace(s[0]) then TrimStart(s[1..]) else s
  }

  /** `s.rstrip()`: drops the whitespace at the end of `s`. */
  function TrimEnd(s: string): (r: string)
    ensures |r| <= |s|
    ensures forall i | |r| <= i < |s| :: IsSpace(s[i])
    ensures r == [] || !IsSpace(r[|r| - 1])
  {
    if |s| > 0 && IsSpace(s[|s| - 1]) then TrimEnd(s[..|s| - 1]) else s
  }

  /** What `lstrip` keeps is a suffix of its input. */
  lemma {:induction false} TrimStartIsSuffix(s: string)
    ensures TrimStart(s) == s[|s| - |TrimStart(s)|..]
  {
    if |s| > 0 && IsSpace(s[0]) {
      TrimStartIsSuffix(s[1..]);
    }
  }

  /** What `rstrip` keeps is a prefix of its input. */
  lemma {:induction false} TrimEndIsPrefix(s: string)
    ensures TrimEnd(s) == s[..|TrimEnd(s)|]
  {
    if |s| > 0 && IsSpace(s[|s| - 1]) {
      TrimEndIsPrefix(s[..|s| - 1]);
    }
  }

  /** `s.strip()`: the result has no whitespace at either end, is empty
      exactly when `s` is all whitespace, and leaves an already stripped
      string alone. */
  function Strip(s: string): (r: string)
    ensures IsStripped(r)
    ensures r == [] <==> IsBlank(s)
    ensures IsStripped(s) ==> r == s
  {
    var front := TrimStart(s);
    TrimStartIsSuffix(s);
    TrimEndIsPrefix(front);
    var r := TrimEnd(front);
    assert r != [] ==> r[0] == front[0];
    assert r == [] ==> front == [];
    r
  }

  /** What `strip` keeps is a contiguous piece of its input, with only
      whitespace cut from either side. */
  lemma StripIsSlice(s: string)
    ensures var front := TrimStart(s);
      && Strip(s) == s[|s| - |front|..][..|Strip(s)|]
      && (forall i | 0 <= i < |s| - |front| :: IsSpace(s[i]))
      && (forall i | |s| - |front| + |Strip(s)| <= i < |s| :: IsSpace(s[i]))
  {
    TrimStartIsSuffix(s);
    TrimEndIsPrefix(TrimStart(s));
  }

  /** Stripping twice is stripping once. */
  lemma StripIdempotent(s: string)
    ensures Strip(Strip(s)) == Strip(s)
  {
  }

  /** A whitespace character after a stripped string is stripped away again. */
  lemma StripDropsTrailingSpace(s: string, c: char)
    requires IsStripped(s) && s != [] && IsSpace(c)
    ensures Strip(s + [c]) == s
  {
    var u := s + [c];
    assert u[0] == s[0];
    assert TrimStart(u) == u;
    assert u[..|u| - 1] == s;
    TrimEndIsPrefix(s);
  }

  /** `sep.join(parts)`. */
  function Join(parts: seq<string>, sep: string): string {
    if |parts| == 0 then ""
    else if |parts| == 1 then parts[0]
    else parts[0] + sep + Join(parts[1..], sep)
  }

  /** The parts written one after the other (`"".join(parts)`, or a string
      grown with `+=`). */
  function Concat(parts: seq<string>): string {
    if parts == [] then "" else Concat(parts[..|parts| - 1]) + parts[|parts| - 1]
  }

  lemma ConcatAppend(parts: seq<string>, p: string)
    ensures Concat(parts + [p]) == Concat(parts) + p
  {
    assert (parts + [p])[..|parts|] == parts;
  }

  /** Where the items of `[first] + xs + [last]` sit. */
  lemma Framed<T>(first: T, xs: seq<T>, last: T)
    ensures var all := [first] + xs + [last];
      && |all| == |xs| + 2
      && all[0] == first
      && (forall i | 0 <= i < |xs| :: all[i + 1] == xs[i])
      && all[|xs| + 1] == last
  {
  }

  lemma FramedAt<T>(first: T, xs: seq<T>, last: T, i: nat)
    requires i < |xs|
    ensures ([first] + xs + [last])[i + 1] == xs[i]
  {
  }

  /** Number of occurrences of `c` across all of `parts`. */
  function TotalCount(parts: seq<string>, c: char): nat {
    if parts == [] then 0 else multiset(parts[0])[c] + TotalCount(parts[1..], c)
  }

  lemma {:induction false} TotalCountAppend(xs: seq<string>, ys: seq<string>, c: char)
    ensures TotalCount(xs + ys, c) == TotalCount(xs, c) + TotalCount(ys, c)
  {
    if xs != [] {
      assert (xs + ys)[0] == xs[0] && (xs + ys)[1..] == xs[1..] + ys;
      TotalCountAppend(xs[1..], ys, c);
    } else {
      assert xs + ys == ys;
    }
  }

  lemma NotInCount(s: string, c: char)
    requires c !in s
    ensures multiset(s)[c] == 0
  {
  }

  /** Occurrences in a concatenation add up. */
  lemma CountAppend(a: string, b: string, c: char)
    ensures multiset(a + b)[c] == multiset(a)[c] + multiset(b)[c]
  {
  }

  lemma CountAppend5(a: string, b: string, d: string, e: string, f: string, c: char)
    ensures multiset(a + b + d + e + f)[c]
      == multiset(a)[c] + multiset(b)[c] + multiset(d)[c] + multiset(e)[c] + multiset(f)[c]
  {
  }

  /** When every part holds `c` exactly k times, all of them together hold
      it k times per part. */
  lemma {:induction false} TotalCountUniform(parts: seq<string>, c: char, k: nat)
    requires forall i | 0 <= i < |parts| :: multiset(parts[i])[c] == k
    ensures TotalCount(parts, c) == k * |parts|
  {
    if parts != [] {
      var tail := parts[1..];
      forall i | 0 <= i < |tail|
        ensures multiset(tail[i])[c] == k
      {
        assert tail[i] == parts[i + 1];
      }
      TotalCountUniform(tail, c, k);
      assert k * |parts| == k * |tail| + k;
    }
  }

  /** The concatenation holds exactly the occurrences of its parts. */
  lemma {:induction false} ConcatCount(parts: seq<string>, c: char)
    ensures multiset(Concat(parts))[c] == TotalCount(parts, c)
  {
    if parts != [] {
      var init, last := parts[..|parts| - 1], parts[|parts| - 1];
      ConcatCount(init, c);
      CountAppend(Concat(init), last, c);
      assert parts == init + [last];
      TotalCountAppend(init, [last], c);
      assert [last][1..] == [];
    }
  }

  /** A separator that does not contain `c` adds no occurrence of `c`:
      the joined string holds exactly the occurrences of its parts. */
  lemma {:induction false} JoinCount(parts: seq<string>, sep: string, c: char)
    requires c !in sep
    ensures multiset(Join(parts, sep))[c] == TotalCount(parts, c)
  {
    if |parts| > 1 {
      JoinCount(parts[1..], sep, c);
      assert multiset(sep)[c] == 0;
    }
  }
}
